=== FILE: README.md ===
# JSON pretty printer: the decision logic, modelled and verified

`json_pretty_printer.py` reads JSON text from the terminal and checks it. It
then reformats the text, either indented or minified, and writes it to a file.
Most of the program is calls into Python's JSON library, argparse, the console,
the file system and the clock. This project models the logic the program
makes its own decisions with:

- **Input collection** (`get_input_data`). Lines are read until one of three
  things happens: a line that lower-cases to `end`; a whitespace-only line
  after something has been kept; or the end of input. Whitespace-only lines
  before any content are skipped. The kept lines are joined with newlines.
  This is a loop that appends to a list. It is modelled as a method
  (`InputCollector.GetInputData`) proved equal to a specification function.
  Separate lemmas then say what the function keeps.
- **The empty-input guard** in `run`. Empty collected text ends the run
  before anything is parsed, formatted or written.
- **The output file name** (`generate_filename`). A non-empty `--output` is
  used as given. Otherwise the name is `pretty_json_YYYYMMDD_HHMMSS.json`.
  The model proves that this name is 32 characters long and that the clock
  reading, cut to the second, can be read back from it. So readings that
  differ somewhere down to the second never give the same name, and readings
  within the same second always do.
- **The overwrite decision** (`handle_existing_file`). A new file is always
  written. An existing one is overwritten only if the answer is `y` or `Y`.
- **The error-context snippet** printed for a JSON syntax error
  (`doc[pos-20:pos+20]`). It follows Python's slice rules, including
  negative bounds, and the run uses it as written. A corrected snippet sits
  beside it (see "## Findings").
- **The run itself** (`run`). The JSON library, the file-existence test, the
  prompt answer and the clock are parameters. The result is one of: nothing
  to do, a reported syntax error, an unexpected error, a cancelled write, a
  saved file, or an end of input at the prompt. Writing the file and the
  `--verbose` echo are assumed to succeed (see "## Left out").

Modules: `Wrappers` (Option), `Text` (Python's `isspace`, `strip`, `lower`,
`join`, and `split` as the inverse of `join`), `InputCollector`, `Filename`,
`Overwrite`, `ErrorContext` and `Printer`. `Printer` holds the
`JsonPrettyPrinter` class. Its constructor runs the collector, and its `Run`
function is the main flow.

Modelling choices:
- `str.isspace` is modelled exactly. It is true for the code points of
  bidirectional class WS, B or S, or general category Zs.
- `str.lower` folds ASCII letters only. The source only compares lower-cased
  text against `end` and `y`. No character outside ASCII lower-cases to
  `e`, `n`, `d` or `y`, so these comparisons come out the same as in Python.
- `%Y` is a zero-padded 4-digit year. The model covers the years 1000 to
  9999 only; see "## Left out" for earlier years.
- A blank line before any content is skipped and reading goes on
  (json_pretty_printer.py:58-61; `InputCollector.LeadingBlankLinesSkipped`).
  Only a blank line after content ends the input, which is what the prompt at
  json_pretty_printer.py:49 means by "press Enter twice".
- With `--compact`, the code passes only `separators=(',', ':')` to
  `json.dumps`. `--sort-keys` and `--indent` are ignored, and non-ASCII
  characters are escaped (`ensure_ascii` keeps its default). The model
  follows the code (`Printer.FormatOptions`).

## Model

| member | source | states |
|---|---|---|
| `Text.IsSpace` | json_pretty_printer.py:58 | defines Python's `str.isspace` for one character; `Text.StripLeadingSpec`, `Text.StripTrailingSpec` and `Text.StripEmptyIffBlank` state what `strip` removes with it |
| `Text.Strip` | json_pretty_printer.py:58 | defines `str.strip()` as dropping leading and then trailing whitespace; its properties are the next three rows |
| `Text.StripLeadingSpec` | json_pretty_printer.py:58 | the result is a suffix of the line, everything dropped is whitespace, and the result does not start with whitespace |
| `Text.StripTrailingSpec` | json_pretty_printer.py:58 | the result is a prefix of the line, everything dropped is whitespace, and the result does not end with whitespace |
| `Text.IsBlank` | json_pretty_printer.py:58 | defines a whitespace-only line; `Text.StripEmptyIffBlank` states that it is exactly the test `not line.strip()` |
| `Text.StripEmptyIffBlank` | json_pretty_printer.py:58 | `line.strip()` is empty exactly when every character of the line is whitespace |
| `Text.Lower` | json_pretty_printer.py:56 | defines `str.lower()` on the ASCII letters; `InputCollector.SentinelSpelling` and `Overwrite.LowerIsY` state which answers and lines it maps to `end` and `y` (also used at json_pretty_printer.py:95) |
| `Text.Join` | json_pretty_printer.py:66 | defines `sep.join(parts)`; `Text.JoinEmptyIffNoParts` and `Text.SplitJoin` state its properties |
| `Text.JoinEmptyIffNoParts` | json_pretty_printer.py:66 | joining lines that are all non-empty gives the empty string only when there are no lines |
| `Text.SplitJoin` | json_pretty_printer.py:66 | splitting the `'\n'.join` of newline-free lines at newlines gives the lines back |
| `InputCollector.IsSentinel` | json_pretty_printer.py:56 | defines the test `line.lower() == 'end'`; `InputCollector.SentinelSpelling` states which lines pass it |
| `InputCollector.SentinelSpelling` | json_pretty_printer.py:56-57 | a line ends collection as the sentinel exactly when it is three characters `e`/`E`, `n`/`N`, `d`/`D`, so a padded ` end ` is not the sentinel |
| `InputCollector.Collect` | json_pretty_printer.py:52-66 | the loop as a function over the remaining lines, keeping no more lines than remain; `InputCollector.CollectStep`, `InputCollector.CollectKeepsContent` and `InputCollector.KeptLinesAreNonBlankPrefix` state what it keeps |
| `InputCollector.KeptLines` | json_pretty_printer.py:52-66 | the lines kept from the whole stream, never more than were read; characterised by `InputCollector.KeptLinesAreNonBlankPrefix` |
| `InputCollector.CollectedText` | json_pretty_printer.py:66 | the returned string, the kept lines joined with newlines; `InputCollector.CollectedTextEmptyIffNoContent` and `InputCollector.CollectedTextSplitsIntoKeptLines` state its properties |
| `InputCollector.CollectStep` | json_pretty_printer.py:55-62 | one loop step: the sentinel stops; a blank line stops once something is kept and is skipped before that; any other line is kept and reading goes on |
| `InputCollector.GetInputData` | json_pretty_printer.py:47-66 | the loop returns the kept lines joined with newlines, and it stops on the sentinel, on a blank line after content, or at the end of input |
| `InputCollector.StopExists` | json_pretty_printer.py:54-64 | every input stream has a point where reading stops: the first line that ends collection, or the end of input |
| `InputCollector.KeptLinesAreNonBlankPrefix` | json_pretty_printer.py:52-66 | the kept lines are exactly the non-blank lines read before reading stops, in input order; when nothing ends collection, that is every non-blank line of the input |
| `InputCollector.EndsCollectionTruncates` | json_pretty_printer.py:55-61 | a line that ends collection, and every line after it, has no effect on what is kept |
| `InputCollector.SentinelEndsCollection` | json_pretty_printer.py:56-57 | the first sentinel line and everything after it are never kept |
| `InputCollector.BlankAfterContentEndsCollection` | json_pretty_printer.py:58-60 | the first blank line after a non-blank line ends collection, and later lines are ignored |
| `InputCollector.LeadingBlankLinesSkipped` | json_pretty_printer.py:58-61 | blank lines before any content are skipped: after them, collection goes on as if nothing had been read |
| `InputCollector.CollectKeepsContent` | json_pretty_printer.py:56-62 | every kept line is an input line, none is blank or empty, and none is the sentinel |
| `InputCollector.CollectedTextEmptyIffNoContent` | json_pretty_printer.py:52-66 | the collected text is empty exactly when no non-blank line comes before reading stops |
| `InputCollector.CollectedTextSplitsIntoKeptLines` | json_pretty_printer.py:66 | when lines hold no newline and something was kept, the collected text splits back into the kept lines |
| `Filename.ZeroPad` | json_pretty_printer.py:89 | one zero-padded `%Y`/`%m`/`%d`/`%H`/`%M`/`%S` field: exactly `width` decimal digits; `Filename.ZeroPadRoundTrip` states that it reads back as the number |
| `Filename.ZeroPadRoundTrip` | json_pretty_printer.py:89 | a zero-padded field wide enough for the number reads back as that number |
| `Filename.Timestamp` | json_pretty_printer.py:89 | `strftime("%Y%m%d_%H%M%S")` is 15 characters; `Filename.TimestampFields` and `Filename.TimestampRoundTrip` state its layout and that it can be read back |
| `Filename.TimestampFilename` | json_pretty_printer.py:89-90 | the default name `pretty_json_<stamp>.json` is 32 characters; `Filename.TimestampFilenameRoundTrip` states that it can be read back |
| `Filename.TimestampFields` | json_pretty_printer.py:89 | the stamp is 15 characters: zero-padded year, month and day, `_`, then zero-padded hour, minute and second |
| `Filename.TimestampRoundTrip` | json_pretty_printer.py:89 | the `%Y%m%d_%H%M%S` stamp is 15 characters and gives back the clock reading down to the second |
| `Filename.TimestampFilenameRoundTrip` | json_pretty_printer.py:89-90 | the default name is 32 characters and gives back the clock reading down to the second |
| `Filename.DistinctTimesGiveDistinctNames` | json_pretty_printer.py:89-90 | runs at clock readings that differ somewhere down to the second get different default names |
| `Filename.SameSecondGivesSameName` | json_pretty_printer.py:89-90 | runs within the same second get the same default name, whatever their microseconds |
| `Filename.IsTruthy` | json_pretty_printer.py:87 | defines the truth test `if self.args.output`: a given, non-empty string; `Filename.GenerateFilename` states both of its branches |
| `Filename.GenerateFilename` | json_pretty_printer.py:85-90 | a non-empty `--output` is returned unchanged; a missing or empty one gives exactly the timestamp name, a 32-character `pretty_json_…json` name that encodes the clock reading down to the second |
| `Overwrite.LowerIsY` | json_pretty_printer.py:95-96 | an answer lower-cases to `y` exactly when it is `y` or `Y`, so `yes`, the empty answer and `n` decline |
| `Overwrite.HandleExistingFile` | json_pretty_printer.py:92-97 | a missing file is always written; an existing one only on `y` or `Y`; end of input at the prompt raises, only when the file exists |
| `ErrorContext.SliceBound` | json_pretty_printer.py:75 | Python's slice-bound rule: an in-range bound stays, a negative bound counts from the end, a bound still below 0 becomes 0, and a bound past the end becomes the length |
| `ErrorContext.Slice` | json_pretty_printer.py:75 | Python's `s[lo:hi]`: agrees with the plain substring on in-range bounds, counts from the end on negative bounds, runs to the end when `hi` is past it and from the start when `lo` is before `-len(s)`, with length at most `hi - lo` for non-negative bounds |
| `ErrorContext.ContextAsWritten` | json_pretty_printer.py:75 | the snippet as written has at most 40 characters, is the 40 characters centred on `pos` when both ends fall inside the document, and is the whole document when it has no more than `20 - pos` characters |
| `ErrorContext.ContextAsWrittenEmptyNearStart` | json_pretty_printer.py:75 | as written, a failure in the first 20 characters of a document of 40 or more characters is shown with an empty snippet |
| `ErrorContext.ContextAsWrittenExample` | json_pretty_printer.py:75 | a 45-character document with a missing colon at offset 5 gets an empty snippet as written and a 25-character one when corrected |
| `ErrorContext.ContextAsWrittenShortExample` | json_pretty_printer.py:75 | as written, the 7-character document `{"a" 1}` failing at offset 5 is shown in full |
| `ErrorContext.CorrectedContext` | json_pretty_printer.py:75 | the corrected snippet is the document cut to 20 characters either side of `pos`, at most 40 characters, and always contains the character at `pos` |
| `ErrorContext.CorrectedContextAgreesAwayFromStart` | json_pretty_printer.py:75 | the correction changes nothing when `pos` is at least 20 |
| `Printer.FormatOptions` | json_pretty_printer.py:99-109 | compact mode passes only minimal separators, so no indent, no key sorting and ASCII escaping; otherwise the indent and key-sorting options are passed and non-ASCII text is kept |
| `Printer.CompactIgnoresIndentAndSortKeys` | json_pretty_printer.py:101-102 | with `--compact`, the `json.dumps` arguments do not depend on `--indent` or `--sort-keys` |
| `Printer.ExitStatus` | json_pretty_printer.py:80-83 | status 0 for no input, a cancelled write and a saved file; 1 for a syntax error, an unexpected error, and an exception at the prompt |
| `Printer.JsonPrettyPrinter.constructor` | json_pretty_printer.py:9-12 | the printer keeps its options, and its input is the text the collector returns for the line stream |
| `Printer.JsonPrettyPrinter.Run` | json_pretty_printer.py:111-131 | empty input ends the run before parsing; a syntax error is reported with line, column and the context snippet as written; a valid document is formatted with `format_json`'s options; it is saved under the generated name only if the file is new or the answer is `y`/`Y`, cancelled on any other answer, and the run fails on end of input at the prompt, which happens exactly when the input is valid, the file exists and no answer comes |

## Left out

- `json.loads` and `json.dumps` are library code. They are parameters of
  `Printer.JsonPrettyPrinter.Run`. No claim is made about parsing, round
  trips, whitespace in compact output or key order. Those are properties of
  the library.
- Argument parsing (`create_parser`) is left out. The options arrive already
  parsed, as `Printer.Args`.
- Console output is left out. That covers the prompts, the report texts, the
  "Common fixes" hints, the `--verbose` echo of the formatted JSON, and the
  absolute path printed after saving. Outcomes are returned as
  `Printer.RunResult` values instead.
- The file system, `open`/`write`, `os.path.exists` and `datetime.now` become
  parameters, or are shown as the `Saved` outcome.
- Writing the output file (json_pretty_printer.py:127-128) and the
  `--verbose` echo (json_pretty_printer.py:122) are assumed to succeed.
  Their exceptions are not modelled: `open` failing, for example on a
  missing directory, and `UnicodeEncodeError` for a lone surrogate kept by
  `ensure_ascii=False`. Both escape uncaught with status 1, and the second
  can leave a truncated file. In the model such a run still ends `Saved`.
- `Printer.JsonPrettyPrinter.Run` takes the overwrite answer as its own
  parameter. In the program the prompt reads the next line of the same input
  stream, the one after the line where collection stopped, so
  `{"a":1}`, `end`, `y` overwrites an existing file, and a stream that ran
  out during collection raises at the prompt. The model does not tie the
  answer to the collector's line stream.
- The text of the exception in the "Invalid JSON" and "Unexpected error"
  reports is left out. Only its line, column and context snippet are kept.
- `KeyboardInterrupt` at any point and `sys.exit` as process control are left
  out, because they are interrupts and process handling. Only the exit status
  of each outcome is modelled.
- `Text.Lower` folds ASCII letters only. Python's full Unicode `lower()` is
  not modelled, since only the comparisons against `end` and `y` are used.
- Readings are modelled for the years 1000 to 9999 only. For earlier years
  glibc's `%Y` does not zero-pad, so the stamp would be shorter than 15
  characters; the model does not cover that.
- Two runs within the same second get the same default name
  (`Filename.SameSecondGivesSameName`). So do two runs at the same wall-clock
  time in an hour repeated when daylight saving time ends, since `fold` is not
  part of the name. The second run then meets the overwrite prompt. The model
  does not track the files earlier runs wrote.
- `ErrorContext.CorrectedContext` bounds its length only for non-negative `pos`.
  The JSON decoder never reports a negative offset.

## Findings

| source | as written | input that shows it | evidently intended | confidence | as-written member | corrected member |
|---|---|---|---|---|---|---|
| json_pretty_printer.py:75 | `e.doc[e.pos-20:e.pos+20]`: for `pos < 20` the start bound is negative and counts from the end of the document | the 45-character document `{"a" 1, "padding": "xxxxxxxxxxxxxxxxxxxxxxx"}` fails at offset 5, and the snippet printed is empty; the same happens for any failure in the first 20 characters of a document of 40 or more characters | `e.doc[max(0, e.pos-20):e.pos+20]`: up to 20 characters either side of the failure, always including the failing character | high (not executed) | `ErrorContext.ContextAsWritten`, `ErrorContext.ContextAsWrittenEmptyNearStart`, `ErrorContext.ContextAsWrittenExample` | `ErrorContext.CorrectedContext` |

=== FILE: error_context.dfy ===
/**
 * The context snippet printed for a JSON syntax error: the characters of the
 * document around the failure offset `pos`, `doc[pos-20:pos+20]`, under
 * Python's slice rules.
 */
module ErrorContext {

  const Radius := 20

  /** Python's normalisation of one slice bound: negative bounds count from the end, then clamp. */
  function SliceBound(i: int, n: nat): (b: nat)
    ensures b <= n
    ensures 0 <= i <= n ==> b == i
    ensures i < 0 <= i + n ==> b == i + n
    ensures i + n < 0 ==> b == 0
    ensures n < i ==> b == n
  {
    if i < 0 then (if i + n < 0 then 0 else i + n)
    else if i > n then n
    else i
  }

  /** Python's `s[lo:hi]`. */
  function Slice(s: string, lo: int, hi: int): (r: string)
    ensures |r| <= |s|
    ensures 0 <= lo <= hi <= |s| ==> r == s[lo..hi]
    ensures lo <= hi < 0 <= lo + |s| ==> r == s[|s| + lo..|s| + hi]
    ensures 0 <= lo <= hi ==> |r| <= hi - lo
    ensures 0 <= lo <= |s| <= hi ==> r == s[lo..]
    ensures lo + |s| <= 0 <= hi <= |s| ==> r == s[..hi]
    ensures lo + |s| <= 0 && |s| <= hi ==> r == s
  {
    var a, b := SliceBound(lo, |s|), SliceBound(hi, |s|);
    if a < b then s[a..b] else []
  }

  /** The snippet exactly as written, `doc[pos-20:pos+20]`. */
  function ContextAsWritten(doc: string, pos: int): (r: string)
    ensures |r| <= 2 * Radius
    ensures Radius <= pos && pos + Radius <= |doc| ==> r == doc[pos - Radius..pos + Radius]
    ensures 0 <= pos && pos + |doc| <= Radius ==> r == doc
  {
    Slice(doc, pos - Radius, pos + Radius)
  }

  /**
   * Near the start of a document of 40 characters or more, `pos - 20` is
   * negative, counts from the end of the document, and the snippet comes out empty.
   */
  lemma ContextAsWrittenEmptyNearStart(doc: string, pos: int)
    requires 0 <= pos < Radius && |doc| >= 2 * Radius
    ensures ContextAsWritten(doc, pos) == []
  {
  }

  /** A syntax error at offset 5 of a 45-character document is shown with no context at all. */
  lemma ContextAsWrittenExample()
    ensures ContextAsWritten("{\"a\" 1, \"padding\": \"xxxxxxxxxxxxxxxxxxxxxxx\"}", 5) == []
    ensures CorrectedContext("{\"a\" 1, \"padding\": \"xxxxxxxxxxxxxxxxxxxxxxx\"}", 5)
         == "{\"a\" 1, \"padding\": \"xxxxx"
  {
    ContextAsWrittenEmptyNearStart("{\"a\" 1, \"padding\": \"xxxxxxxxxxxxxxxxxxxxxxx\"}", 5);
  }

  /**
   * In a document no longer than the 20 characters after the failure offset,
   * both bounds fall outside the document and the snippet is the whole of it:
   * `{"a" 1}` fails at offset 5 and is shown in full.
   */
  lemma ContextAsWrittenShortExample()
    ensures ContextAsWritten("{\"a\" 1}", 5) == "{\"a\" 1}"
  {
  }

  function Max(a: int, b: int): int { if a < b then b else a }
  function Min(a: int, b: int): int { if a < b then a else b }

  /**
   * The intended snippet, `doc[max(0, pos-20):pos+20]`: up to 20 characters on
   * each side of the failure offset, cut off at the ends of the document, and
   * always including the character at the failure offset.
   */
  function CorrectedContext(doc: string, pos: int): (r: string)
    ensures 0 <= pos ==> |r| <= 2 * Radius
    ensures 0 <= pos <= |doc| ==> r == doc[Max(0, pos - Radius)..Min(|doc|, pos + Radius)]
    ensures 0 <= pos < |doc| ==> pos - Max(0, pos - Radius) < |r| && r[pos - Max(0, pos - Radius)] == doc[pos]
  {
    Slice(doc, Max(0, pos - Radius), pos + Radius)
  }

  /** The correction changes nothing once there are 20 characters before the failure offset. */
  lemma CorrectedContextAgreesAwayFromStart(doc: string, pos: int)
    requires pos >= Radius
    ensures CorrectedContext(doc, pos) == ContextAsWritten(doc, pos)
  {
  }
}

=== FILE: filename.dfy ===
/**
 * Output file naming (`generate_filename`): an explicit, non-empty `--output`
 * is used as given; otherwise the name is `pretty_json_` followed by the local
 * time as `strftime("%Y%m%d_%H%M%S")` and `.json`. The clock reading is a
 * parameter.
 */
module Filename {
  import opened Wrappers

  /**
   * A reading of the local clock as `datetime.now()` returns it: the calendar
   * fields, the microsecond, and `fold`, which tells apart the two passes
   * through a wall-clock hour that repeats when daylight saving time ends.
   */
  datatype DateTime = DateTime(
    year: int, month: int, day: int, hour: int, minute: int, second: int,
    microsecond: int, fold: int)
  {
    /**
     * The ranges a `datetime` guarantees for its fields, except that the year
     * starts at 1000: for earlier years glibc's `%Y` does not zero-pad.
     */
    predicate Valid()
    {
      && 1000 <= year <= 9999
      && 1 <= month <= 12
      && 1 <= day <= 31
      && 0 <= hour < 24
      && 0 <= minute < 60
      && 0 <= second < 60
      && 0 <= microsecond < 1000000
      && 0 <= fold <= 1
    }

    /** The reading cut down to the second: what `%Y%m%d_%H%M%S` can show. */
    function ToSecond(): DateTime
    {
      DateTime(year, month, day, hour, minute, second, 0, 0)
    }
  }

  /** `10` to the power `n`: the first number too wide for an `n`-digit field. */
  function Pow10(n: nat): (p: nat)
    ensures p >= 1
  {
    if n == 0 then 1 else 10 * Pow10(n - 1)
  }

  /** An ASCII decimal digit, as `strftime` writes them. */
  predicate IsDigit(c: char)
  {
    '0' <= c <= '9'
  }

  /** Every character of `s` is a decimal digit. */
  predicate AllDigits(s: string)
  {
    forall i | 0 <= i < |s| :: IsDigit(s[i])
  }

  /** The character for the decimal digit `d`. */
  function DigitChar(d: nat): (c: char)
    requires d < 10
    ensures IsDigit(c)
  {
    ('0' as int + d) as char
  }

  /** The last `width` decimal digits of `n`, zero-padded on the left (`%0<width>d`). */
  function ZeroPad(n: nat, width: nat): (s: string)
    ensures |s| == width && AllDigits(s)
  {
    if width == 0 then "" else ZeroPad(n / 10, width - 1) + [DigitChar(n % 10)]
  }

  /** The number a string of decimal digits denotes. */
  function DecimalValue(s: string): nat
    requires AllDigits(s)
  {
    if s == [] then 0 else 10 * DecimalValue(s[..|s| - 1]) + (s[|s| - 1] as int - '0' as int)
  }

  /** Zero-padding to a width that holds the number loses nothing. */
  lemma {:induction false} ZeroPadRoundTrip(n: nat, width: nat)
    requires n < Pow10(width)
    ensures DecimalValue(ZeroPad(n, width)) == n
  {
    if width > 0 {
      ZeroPadRoundTrip(n / 10, width - 1);
      var s := ZeroPad(n, width);
      assert s[..|s| - 1] == ZeroPad(n / 10, width - 1);
    }
  }

  /** `strftime("%Y%m%d_%H%M%S")`. */
  function Timestamp(t: DateTime): (r: string)
    requires t.Valid()
    ensures |r| == 15
  {
    ZeroPad(t.year, 4) + ZeroPad(t.month, 2) + ZeroPad(t.day, 2) + "_" +
    ZeroPad(t.hour, 2) + ZeroPad(t.minute, 2) + ZeroPad(t.second, 2)
  }

  const Prefix := "pretty_json_"
  const Extension := ".json"

  /** The default name, `pretty_json_<timestamp>.json`. */
  function TimestampFilename(t: DateTime): (r: string)
    requires t.Valid()
    ensures |r| == 32
  {
    Prefix + Timestamp(t) + Extension
  }

  /** Reads a clock reading back out of a `%Y%m%d_%H%M%S` stamp; `None` for anything else. */
  function ParseTimestamp(ts: string): Option<DateTime>
  {
    if && |ts| == 15 && ts[8] == '_'
       && AllDigits(ts[0..4]) && AllDigits(ts[4..6]) && AllDigits(ts[6..8])
       && AllDigits(ts[9..11]) && AllDigits(ts[11..13]) && AllDigits(ts[13..15])
    then
      Some(DateTime(DecimalValue(ts[0..4]), DecimalValue(ts[4..6]), DecimalValue(ts[6..8]),
                    DecimalValue(ts[9..11]), DecimalValue(ts[11..13]), DecimalValue(ts[13..15]), 0, 0))
    else None
  }

  /** Reads a clock reading back out of a default name; `None` for any other name. */
  function ParseTimestampFilename(name: string): Option<DateTime>
  {
    if |name| == 32 && name[..12] == Prefix && name[27..] == Extension
    then ParseTimestamp(name[12..27])
    else None
  }

  /** The three parts of `a + b + c` are found at their offsets. */
  lemma Parts(a: string, b: string, c: string)
    ensures (a + b + c)[..|a|] == a
    ensures (a + b + c)[|a|..|a| + |b|] == b
    ensures (a + b + c)[|a| + |b|..] == c
  {
  }

  /** Where each field of the clock reading sits in the stamp. */
  lemma TimestampFields(t: DateTime)
    requires t.Valid()
    ensures |Timestamp(t)| == 15 && Timestamp(t)[8] == '_'
    ensures Timestamp(t)[0..4] == ZeroPad(t.year, 4)
    ensures Timestamp(t)[4..6] == ZeroPad(t.month, 2)
    ensures Timestamp(t)[6..8] == ZeroPad(t.day, 2)
    ensures Timestamp(t)[9..11] == ZeroPad(t.hour, 2)
    ensures Timestamp(t)[11..13] == ZeroPad(t.minute, 2)
    ensures Timestamp(t)[13..15] == ZeroPad(t.second, 2)
  {
    var y, mo, d := ZeroPad(t.year, 4), ZeroPad(t.month, 2), ZeroPad(t.day, 2);
    var h, mi, s := ZeroPad(t.hour, 2), ZeroPad(t.minute, 2), ZeroPad(t.second, 2);
    var date, time := y + mo + d, h + mi + s;
    var ts := Timestamp(t);
    assert ts == date + "_" + time;
    Parts(date, "_", time);
    Parts(y, mo, d);
    Parts(h, mi, s);
    assert ts[0..4] == date[..4];
    assert ts[4..6] == date[4..6];
    assert ts[6..8] == date[6..];
    assert ts[9..11] == time[..2];
    assert ts[11..13] == time[2..4];
    assert ts[13..15] == time[4..];
  }

  /** The stamp is 15 characters long and gives back the clock reading it was made from, down to the second. */
  lemma TimestampRoundTrip(t: DateTime)
    requires t.Valid()
    ensures |Timestamp(t)| == 15
    ensures ParseTimestamp(Timestamp(t)) == Some(t.ToSecond())
  {
    TimestampFields(t);
    ZeroPadRoundTrip(t.year, 4);
    ZeroPadRoundTrip(t.month, 2);
    ZeroPadRoundTrip(t.day, 2);
    ZeroPadRoundTrip(t.hour, 2);
    ZeroPadRoundTrip(t.minute, 2);
    ZeroPadRoundTrip(t.second, 2);
  }

  /** The default name is 32 characters long and gives back the clock reading it was made from, down to the second. */
  lemma TimestampFilenameRoundTrip(t: DateTime)
    requires t.Valid()
    ensures |TimestampFilename(t)| == 32
    ensures ParseTimestampFilename(TimestampFilename(t)) == Some(t.ToSecond())
  {
    TimestampRoundTrip(t);
    var name := TimestampFilename(t);
    Parts(Prefix, Timestamp(t), Extension);
    assert name[..12] == Prefix;
    assert name[27..] == Extension;
  }

  /** Runs at clock readings that differ somewhere down to the second never produce the same default name. */
  lemma DistinctTimesGiveDistinctNames(t1: DateTime, t2: DateTime)
    requires t1.Valid() && t2.Valid() && t1.ToSecond() != t2.ToSecond()
    ensures TimestampFilename(t1) != TimestampFilename(t2)
  {
    TimestampFilenameRoundTrip(t1);
    TimestampFilenameRoundTrip(t2);
  }

  /**
   * Runs within the same second, or at the same wall time in the two passes
   * through a repeated hour, produce the same default name.
   */
  lemma SameSecondGivesSameName(t1: DateTime, t2: DateTime)
    requires t1.Valid() && t2.Valid() && t1.ToSecond() == t2.ToSecond()
    ensures TimestampFilename(t1) == TimestampFilename(t2)
  {
  }

  /** `if self.args.output:` is false for a missing option and for the empty string. */
  predicate IsTruthy(output: Option<string>)
  {
    output.Some? && output.value != ""
  }

  /** `generate_filename`: the explicit name if truthy, else the timestamp-derived name. */
  function GenerateFilename(output: Option<string>, now: DateTime): (name: string)
    requires now.Valid()
    ensures IsTruthy(output) ==> name == output.value
    ensures output == None || output == Some("") ==> name == TimestampFilename(now)
    ensures !IsTruthy(output) ==>
      && |name| == 32
      && name[..12] == Prefix
      && name[|name| - 5..] == Extension
      && ParseTimestampFilename(name) == Some(now.ToSecond())
  {
    if IsTruthy(output) then output.value
    else
      TimestampFilenameRoundTrip(now);
      TimestampFilename(now)
  }
}

=== FILE: input_collector.dfy ===
/**
 * The interactive input collector (`get_input_data`): lines are read one at a
 * time until a line that lower-cases to `end`, until a whitespace-only line
 * once something has been kept, or until the input runs out (`EOFError`).
 * Whitespace-only lines before any content are skipped. The kept lines are
 * joined with newlines.
 *
 * The stream of `input()` results is a finite sequence of lines; reaching its
 * end stands for `EOFError`.
 */
module InputCollector {
  import opened Text

  /** `line.lower() == 'end'`: the line that ends collection early. */
  predicate IsSentinel(line: string)
  {
    Lower(line) == "end"
  }

  /** The sentinel is `end` in any mix of cases, nothing longer and nothing padded. */
  lemma SentinelSpelling(line: string)
    ensures IsSentinel(line) <==>
      |line| == 3 && line[0] in "eE" && line[1] in "nN" && line[2] in "dD"
  {
    if IsSentinel(line) {
      assert |Lower(line)| == |line|;
      assert Lower(line)[0] == 'e' && Lower(line)[1] == 'n' && Lower(line)[2] == 'd';
      assert LowerChar(line[0]) == 'e' && LowerChar(line[1]) == 'n' && LowerChar(line[2]) == 'd';
      LowerCharIs(line[0], 'e');
      LowerCharIs(line[1], 'n');
      LowerCharIs(line[2], 'd');
    }
    if |line| == 3 && line[0] in "eE" && line[1] in "nN" && line[2] in "dD" {
      assert Lower(line) == [LowerChar(line[0]), LowerChar(line[1]), LowerChar(line[2])];
    }
  }

  /**
   * The collection loop as a function: the lines kept from line `i` on, where
   * `started` says whether a line has been kept already.
   */
  function Collect(lines: seq<string>, i: nat, started: bool): (kept: seq<string>)
    requires i <= |lines|
    ensures |kept| <= |lines| - i
    decreases |lines| - i
  {
    if i == |lines| then []
    else if IsSentinel(lines[i]) then []
    else if IsBlank(lines[i]) then (if started then [] else Collect(lines, i + 1, false))
    else [lines[i]] + Collect(lines, i + 1, true)
  }

  /** The lines `get_input_data` keeps from the whole stream. */
  function KeptLines(lines: seq<string>): (kept: seq<string>)
    ensures |kept| <= |lines|
  {
    Collect(lines, 0, false)
  }

  /** The string `get_input_data` returns. */
  function CollectedText(lines: seq<string>): string
  {
    Join(KeptLines(lines), "\n")
  }

  /** One step of the loop: how line `i` is handled, in the terms the loop tests it by. */
  lemma CollectStep(lines: seq<string>, i: nat, started: bool)
    requires i < |lines|
    ensures Collect(lines, i, started) ==
      if Lower(lines[i]) == "end" then []
      else if Strip(lines[i]) == [] then (if started then [] else Collect(lines, i + 1, false))
      else [lines[i]] + Collect(lines, i + 1, true)
  {
    StripEmptyIffBlank(lines[i]);
  }

  /** `get_input_data`: the read loop over the input stream. */
  method GetInputData(stdin: seq<string>) returns (text: string)
    ensures text == CollectedText(stdin)
  {
    var lines: seq<string> := [];
    var i := 0;
    while i < |stdin|
      invariant 0 <= i <= |stdin|
      invariant KeptLines(stdin) == lines + Collect(stdin, i, |lines| > 0)
    {
      var line := stdin[i];
      CollectStep(stdin, i, |lines| > 0);
      i := i + 1;
      if Lower(line) == "end" {
        assert KeptLines(stdin) == lines + [] == lines;
        break;
      }
      if Strip(line) == [] {
        if |lines| > 0 {
          assert KeptLines(stdin) == lines + [] == lines;
          break;
        }
        continue;
      }
      assert KeptLines(stdin) == (lines + [line]) + Collect(stdin, i, true);
      lines := lines + [line];
    }
    assert KeptLines(stdin) == lines;
    text := Join(lines, "\n");
  }

  /** Some line before index `i` has content. */
  ghost predicate ContentBefore(lines: seq<string>, i: int)
    requires 0 <= i <= |lines|
  {
    exists j | 0 <= j < i :: !IsBlank(lines[j])
  }

  /** Line `i` ends collection: the sentinel, or a blank line after content. */
  ghost predicate EndsCollection(lines: seq<string>, i: int)
    requires 0 <= i < |lines|
  {
    IsSentinel(lines[i]) || (IsBlank(lines[i]) && ContentBefore(lines, i))
  }

  /** `n` is where reading stops: the first line that ends collection, or the end of input. */
  ghost predicate IsStop(lines: seq<string>, n: int)
  {
    && 0 <= n <= |lines|
    && (forall i | 0 <= i < n :: !EndsCollection(lines, i))
    && (n < |lines| ==> EndsCollection(lines, n))
  }

  /** The lines of `lines` that are not whitespace-only, in order. */
  function NonBlankLines(lines: seq<string>): seq<string>
  {
    if lines == [] then []
    else (if IsBlank(lines[0]) then [] else [lines[0]]) + NonBlankLines(lines[1..])
  }

  /** The place where reading stops exists for every stream. */
  lemma {:induction false} StopExists(lines: seq<string>, i: nat)
    requires i <= |lines|
    requires forall k | 0 <= k < i :: !EndsCollection(lines, k)
    ensures exists n :: IsStop(lines, n)
    decreases |lines| - i
  {
    if i == |lines| || EndsCollection(lines, i) {
      assert IsStop(lines, i);
    } else {
      StopExists(lines, i + 1);
    }
  }

  /** From line `i` up to the stop, collection keeps exactly the non-blank lines. */
  lemma {:induction false} CollectMatchesFilter(lines: seq<string>, i: nat, n: nat)
    requires IsStop(lines, n) && i <= n
    ensures Collect(lines, i, ContentBefore(lines, i)) == NonBlankLines(lines[i..n])
    decreases n - i
  {
    if i == n {
      if n < |lines| {
        assert EndsCollection(lines, n);
      }
    } else {
      assert !EndsCollection(lines, i);
      var line := lines[i];
      assert lines[i..n][1..] == lines[i + 1..n];
      CollectMatchesFilter(lines, i + 1, n);
      if IsBlank(line) {
        assert !ContentBefore(lines, i);
        assert !ContentBefore(lines, i + 1);
      } else {
        assert ContentBefore(lines, i + 1);
      }
    }
  }

  /** The kept lines are exactly the non-blank lines read before reading stops, in input order. */
  lemma KeptLinesAreNonBlankPrefix(lines: seq<string>, n: nat)
    requires IsStop(lines, n)
    ensures KeptLines(lines) == NonBlankLines(lines[..n])
  {
    CollectMatchesFilter(lines, 0, n);
    assert lines[0..n] == lines[..n];
  }

  /** A line that ends collection hides itself and everything after it. */
  lemma EndsCollectionTruncates(lines: seq<string>, i: nat)
    requires i < |lines| && EndsCollection(lines, i)
    ensures KeptLines(lines) == KeptLines(lines[..i])
  {
    StopExists(lines, 0);
    var n :| IsStop(lines, n);
    assert n <= i;
    forall k | 0 <= k < n
      ensures !EndsCollection(lines[..i], k)
    {
      ContentBeforeInPrefix(lines, i, k);
      assert !EndsCollection(lines, k);
    }
    if n < i {
      ContentBeforeInPrefix(lines, i, n);
      assert EndsCollection(lines[..i], n);
    }
    assert IsStop(lines[..i], n);
    KeptLinesAreNonBlankPrefix(lines, n);
    KeptLinesAreNonBlankPrefix(lines[..i], n);
    assert lines[..i][..n] == lines[..n];
  }

  /** The sentinel line and every line after it are never kept. */
  lemma SentinelEndsCollection(lines: seq<string>, i: nat)
    requires i < |lines| && IsSentinel(lines[i])
    ensures KeptLines(lines) == KeptLines(lines[..i])
  {
    EndsCollectionTruncates(lines, i);
  }

  /** The first blank line after a kept line ends collection; later lines are ignored. */
  lemma BlankAfterContentEndsCollection(lines: seq<string>, j: nat, i: nat)
    requires j < i < |lines| && !IsBlank(lines[j]) && IsBlank(lines[i])
    ensures KeptLines(lines) == KeptLines(lines[..i])
  {
    assert ContentBefore(lines, i);
    EndsCollectionTruncates(lines, i);
  }

  /** The sentinel is never a whitespace-only line. */
  lemma SentinelIsNotBlank(line: string)
    requires IsSentinel(line)
    ensures !IsBlank(line)
  {
    SentinelSpelling(line);
  }

  /** With nothing kept yet, a run of blank lines from `i` to `k` is passed over. */
  lemma {:induction false} SkipLeadingBlanks(lines: seq<string>, i: nat, k: nat)
    requires i <= k <= |lines|
    requires forall j | 0 <= j < k :: IsBlank(lines[j])
    ensures Collect(lines, i, false) == Collect(lines, k, false)
    decreases k - i
  {
    if i < k {
      if IsSentinel(lines[i]) {
        SentinelIsNotBlank(lines[i]);
      }
      SkipLeadingBlanks(lines, i + 1, k);
    }
  }

  /**
   * Blank lines before any content are skipped: after `k` leading blank lines,
   * collection goes on from line `k` as if nothing had been read.
   */
  lemma LeadingBlankLinesSkipped(lines: seq<string>, k: nat)
    requires k <= |lines|
    requires forall j | 0 <= j < k :: IsBlank(lines[j])
    ensures KeptLines(lines) == Collect(lines, k, false)
  {
    SkipLeadingBlanks(lines, 0, k);
  }

  /** Every kept line is an input line, none is whitespace-only (so none is empty) and none is the sentinel. */
  lemma {:induction false} CollectKeepsContent(lines: seq<string>, i: nat, started: bool)
    requires i <= |lines|
    ensures forall k | 0 <= k < |Collect(lines, i, started)| ::
      && Collect(lines, i, started)[k] in lines
      && !IsBlank(Collect(lines, i, started)[k])
      && !IsSentinel(Collect(lines, i, started)[k])
    decreases |lines| - i
  {
    if i < |lines| {
      CollectKeepsContent(lines, i + 1, false);
      CollectKeepsContent(lines, i + 1, true);
    }
  }

  /** The filter keeps nothing exactly when every line is blank. */
  lemma {:induction false} NonBlankLinesEmpty(lines: seq<string>)
    ensures NonBlankLines(lines) == [] <==> forall k | 0 <= k < |lines| :: IsBlank(lines[k])
    decreases |lines|
  {
    if lines != [] {
      NonBlankLinesEmpty(lines[1..]);
      assert forall k | 1 <= k < |lines| :: lines[k] == lines[1..][k - 1];
    }
  }

  /**
   * The collected text is empty exactly when no line with content comes before
   * reading stops: an immediate sentinel, only blank lines, or no input at all.
   */
  lemma CollectedTextEmptyIffNoContent(lines: seq<string>, n: nat)
    requires IsStop(lines, n)
    ensures CollectedText(lines) == "" <==> forall k | 0 <= k < n :: IsBlank(lines[k])
  {
    var kept := KeptLines(lines);
    CollectKeepsContent(lines, 0, false);
    assert forall k | 0 <= k < |kept| :: kept[k] != "" by {
      forall k | 0 <= k < |kept| ensures kept[k] != "" {
        assert !IsBlank(kept[k]);
      }
    }
    JoinEmptyIffNoParts(kept, "\n");
    KeptLinesAreNonBlankPrefix(lines, n);
    NonBlankLinesEmpty(lines[..n]);
    assert forall k | 0 <= k < n :: lines[..n][k] == lines[k];
  }

  /**
   * Lines read by `input()` carry no newline, so the collected text determines
   * the kept lines: splitting it at newlines gives them back.
   */
  lemma CollectedTextSplitsIntoKeptLines(lines: seq<string>)
    requires forall i | 0 <= i < |lines| :: '\n' !in lines[i]
    requires KeptLines(lines) != []
    ensures Split(CollectedText(lines), '\n') == KeptLines(lines)
  {
    CollectKeepsContent(lines, 0, false);
    SplitJoin(KeptLines(lines), '\n');
  }

  /** Whether content comes before line `k` does not depend on the lines from `i` on. */
  lemma ContentBeforeInPrefix(lines: seq<string>, i: nat, k: nat)
    requires k <= i <= |lines|
    ensures ContentBefore(lines[..i], k) == ContentBefore(lines, k)
  {
    if ContentBefore(lines, k) {
      var j :| 0 <= j < k && !IsBlank(lines[j]);
      assert lines[..i][j] == lines[j];
    }
  }
}

=== FILE: overwrite.dfy ===
/**
 * Conflict resolution before writing (`handle_existing_file`): a missing file
 * is written without asking; an existing one only when the answer to the
 * overwrite prompt lower-cases to `y`. Whether the file exists and the answer
 * typed are parameters; an answer of `None` stands for end of input at the
 * prompt, where `input()` raises `EOFError`, which nothing catches.
 */
module Overwrite {
  import opened Wrappers
  import opened Text

  /** `Some(write?)`, or `None` when the prompt raised `EOFError`. */
  function HandleExistingFile(fileExists: bool, response: Option<string>): (decision: Option<bool>)
    ensures !fileExists ==> decision == Some(true)
    ensures decision == None <==> fileExists && response == None
    ensures decision == Some(true) <==> !fileExists || response == Some("y") || response == Some("Y")
  {
    if fileExists then
      match response
      case None => None
      case Some(answer) =>
        LowerIsY(answer);
        Some(Lower(answer) == "y")
    else Some(true)
  }

  /** Only `y` and `Y` lower-case to `y`: `yes`, the empty answer and `n` all decline. */
  lemma LowerIsY(answer: string)
    ensures Lower(answer) == "y" <==> answer == "y" || answer == "Y"
  {
    if Lower(answer) == "y" {
      assert |answer| == 1 && LowerChar(answer[0]) == Lower(answer)[0];
      LowerCharIs(answer[0], 'y');
      assert answer == [answer[0]];
    }
    if answer == "Y" {
      assert Lower(answer) == [LowerChar('Y')];
    }
  }
}

=== FILE: printer.dfy ===
/**
 * The printer object and its main flow (`JSONPrettyPrinter`, `run`):
 * collect the input, stop with "No input received!" when it is empty, parse,
 * format, choose the file name, resolve a conflict with an existing file, and
 * write.
 *
 * The JSON library is not modelled: `json.loads` and `json.dumps` are passed in
 * as functions, the file system as an existence test, the overwrite prompt as
 * its answer, and the clock as a reading.
 */
module Printer {
  import opened Wrappers
  import InputCollector
  import Filename
  import Overwrite
  import ErrorContext

  /** The command-line options after parsing (`-i`, `-o`, `-s`, `-c`, `-v`). */
  datatype Args = Args(indent: int, output: Option<string>, sortKeys: bool, compact: bool, verbose: bool)

  /** What `json.loads` does with the text: a value, a syntax error, or any other exception. */
  datatype ParseOutcome<V> =
    | Parsed(value: V)
    | DecodeError(lineno: int, colno: int, pos: int)
    | Failed

  /** The keyword arguments `format_json` hands to `json.dumps`. */
  datatype DumpOptions = DumpOptions(
    indent: Option<int>,
    separators: Option<(string, string)>,
    sortKeys: bool,
    ensureAscii: bool)

  /** `format_json`'s choice of `json.dumps` arguments. */
  function FormatOptions(args: Args): (o: DumpOptions)
    ensures args.compact ==> o.indent == None && o.separators == Some((",", ":"))
    ensures args.compact ==> !o.sortKeys && o.ensureAscii
    ensures !args.compact ==> o.indent == Some(args.indent) && o.separators == None
    ensures !args.compact ==> o.sortKeys == args.sortKeys && !o.ensureAscii
  {
    if args.compact then DumpOptions(None, Some((",", ":")), false, true)
    else DumpOptions(Some(args.indent), None, args.sortKeys, false)
  }

  /** Compact output ignores `--indent` and `--sort-keys`: only `--compact` decides the arguments. */
  lemma CompactIgnoresIndentAndSortKeys(a: Args, b: Args)
    requires a.compact && b.compact
    ensures FormatOptions(a) == FormatOptions(b)
  {
  }

  /** How a run ends. */
  datatype RunResult =
    | NoInput                                       // "No input received!": nothing parsed or written
    | InvalidJson(line: int, column: int, context: string)  // reported, `sys.exit(1)`
    | UnexpectedError                               // reported, `sys.exit(1)`
    | Cancelled(filename: string)                   // "Operation cancelled."
    | Saved(filename: string, contents: string)     // written with `contents`
    | PromptEof(filename: string)                   // `EOFError` at the overwrite prompt escapes

  /** The process exit status for each way a run ends. */
  function ExitStatus(r: RunResult): (status: int)
    ensures status == 0 <==> r.NoInput? || r.Cancelled? || r.Saved?
    ensures status != 0 ==> status == 1
  {
    match r
    case NoInput => 0
    case Cancelled(_) => 0
    case Saved(_, _) => 0
    case InvalidJson(_, _, _) => 1
    case UnexpectedError => 1
    case PromptEof(_) => 1
  }

  class JsonPrettyPrinter {
    const args: Args
    const inputData: string

    /** `__init__`: takes the parsed options and collects the input from the line stream. */
    constructor (args: Args, stdin: seq<string>)
      ensures this.args == args
      ensures inputData == InputCollector.CollectedText(stdin)
    {
      var text := InputCollector.GetInputData(stdin);
      this.args := args;
      this.inputData := text;
    }

    /**
     * `run`, with the library and the environment as parameters: `loads` and
     * `dumps` stand for `json.loads` and `json.dumps`, `fileExists` for
     * `os.path.exists`, `response` for the answer to the overwrite prompt
     * (`None`: end of input), `now` for `datetime.now()`.
     */
    function Run<V>(
      loads: string -> ParseOutcome<V>,
      dumps: (V, DumpOptions) -> string,
      now: Filename.DateTime,
      fileExists: string -> bool,
      response: Option<string>): (r: RunResult)
      requires now.Valid()
      // empty input: nothing is parsed, formatted or written
      ensures r == NoInput <==> inputData == ""
      // a syntax error is reported with its position and the text around it
      ensures r.InvalidJson? <==> inputData != "" && loads(inputData).DecodeError?
      ensures r.InvalidJson? ==>
        && r.line == loads(inputData).lineno
        && r.column == loads(inputData).colno
        && r.context == ErrorContext.ContextAsWritten(inputData, loads(inputData).pos)
      ensures r.UnexpectedError? <==> inputData != "" && loads(inputData).Failed?
      // a valid document always reaches the file stage, under the chosen name
      ensures (r.Saved? || r.Cancelled? || r.PromptEof?) <==> inputData != "" && loads(inputData).Parsed?
      ensures r.Saved? || r.Cancelled? || r.PromptEof? ==>
        r.filename == Filename.GenerateFilename(args.output, now)
      // the file is written only when it is new or the user typed y or Y, and holds the formatted value
      ensures r.Saved? <==>
        && inputData != "" && loads(inputData).Parsed?
        && (fileExists(r.filename) ==> response == Some("y") || response == Some("Y"))
      ensures r.Saved? ==> r.contents == dumps(loads(inputData).value, FormatOptions(args))
      // end of input at the prompt for an existing file escapes as `EOFError`
      ensures r.PromptEof? <==>
        && inputData != "" && loads(inputData).Parsed?
        && fileExists(Filename.GenerateFilename(args.output, now)) && response == None
    {
      if inputData == "" then NoInput
      else
        match loads(inputData)
        case DecodeError(lineno, colno, pos) =>
          InvalidJson(lineno, colno, ErrorContext.ContextAsWritten(inputData, pos))
        case Failed => UnexpectedError
        case Parsed(data) =>
          var formatted := dumps(data, FormatOptions(args));
          var filename := Filename.GenerateFilename(args.output, now);
          match Overwrite.HandleExistingFile(fileExists(filename), response)
          case None => PromptEof(filename)
          case Some(true) => Saved(filename, formatted)
          case Some(false) => Cancelled(filename)
    }
  }
}

=== FILE: text.dfy ===
/**
 * The Python string primitives the printer relies on: `str.isspace`,
 * `str.strip`, `str.lower` and `str.join`, with `str.split` as the inverse of
 * the join.
 */
module Text {

  /** Python's `str.isspace` on one character: the code points whose bidirectional
      class is WS, B or S, or whose general category is Zs. */
  predicate IsSpace(c: char)
  {
    || ('\t' <= c <= '\r')
    || ('\U{1C}' <= c <= '\U{1F}')
    || c == ' '
    || c == '\U{85}'
    || c == '\U{A0}'
    || c == '\U{1680}'
    || ('\U{2000}' <= c <= '\U{200A}')
    || c == '\U{2028}'
    || c == '\U{2029}'
    || c == '\U{202F}'
    || c == '\U{205F}'
    || c == '\U{3000}'
  }

  /** Every character of `s` is whitespace (the empty string included). */
  predicate IsBlank(s: string)
  {
    forall i | 0 <= i < |s| :: IsSpace(s[i])
  }

  /** `s.lstrip()`: drops the leading whitespace. */
  function StripLeading(s: string): string
  {
    if s != [] && IsSpace(s[0]) then StripLeading(s[1..]) else s
  }

  /** `s.rstrip()`: drops the trailing whitespace. */
  function StripTrailing(s: string): string
  {
    if s != [] && IsSpace(s[|s| - 1]) then StripTrailing(s[..|s| - 1]) else s
  }

  /** `lstrip` keeps a suffix, drops only whitespace, and stops at the first other character. */
  lemma {:induction false} StripLeadingSpec(s: string)
    ensures |StripLeading(s)| <= |s| && StripLeading(s) == s[|s| - |StripLeading(s)|..]
    ensures IsBlank(s[..|s| - |StripLeading(s)|])
    ensures StripLeading(s) != [] ==> !IsSpace(StripLeading(s)[0])
    decreases |s|
  {
    if s != [] && IsSpace(s[0]) {
      StripLeadingSpec(s[1..]);
      var r := StripLeading(s);
      assert s[..|s| - |r|] == [s[0]] + s[1..][..|s| - 1 - |r|];
    }
  }

  /** `rstrip` keeps a prefix, drops only whitespace, and stops at the last other character. */
  lemma {:induction false} StripTrailingSpec(s: string)
    ensures |StripTrailing(s)| <= |s| && StripTrailing(s) == s[..|StripTrailing(s)|]
    ensures IsBlank(s[|StripTrailing(s)|..])
    ensures StripTrailing(s) != [] ==> !IsSpace(StripTrailing(s)[|StripTrailing(s)| - 1])
    decreases |s|
  {
    if s != [] && IsSpace(s[|s| - 1]) {
      StripTrailingSpec(s[..|s| - 1]);
      var r := StripTrailing(s);
      assert s[|r|..] == s[..|s| - 1][|r|..] + [s[|s| - 1]];
    }
  }

  /** `s.strip()`: the part of `s` between its leading and trailing whitespace. */
  function Strip(s: string): string
  {
    StripTrailing(StripLeading(s))
  }

  /** `not line.strip()` holds exactly of the whitespace-only lines. */
  lemma StripEmptyIffBlank(s: string)
    ensures Strip(s) == [] <==> IsBlank(s)
  {
    var t := StripLeading(s);
    StripLeadingSpec(s);
    StripTrailingSpec(t);
    if t == [] {
      assert s[..|s|] == s;
    } else {
      var u := StripTrailing(t);
      assert t[0..] == t;
      assert u != [];
      assert s[|s| - |t|] == t[0];
    }
  }

  /** ASCII case folding of one character. */
  function LowerChar(c: char): char
  {
    if 'A' <= c <= 'Z' then (c as int - 'A' as int + 'a' as int) as char else c
  }

  /** `s.lower()`, folding ASCII letters. */
  function Lower(s: string): string
  {
    seq(|s|, i requires 0 <= i < |s| => LowerChar(s[i]))
  }

  /** The characters whose lower-case form is the ASCII letter `lower`. */
  lemma LowerCharIs(c: char, lower: char)
    requires 'a' <= lower <= 'z'
    ensures LowerChar(c) == lower <==> c == lower || c as int == lower as int - 'a' as int + 'A' as int
  {
  }

  /** `sep.join(parts)`. */
  function Join(parts: seq<string>, sep: string): string
  {
    if parts == [] then ""
    else if |parts| == 1 then parts[0]
    else parts[0] + sep + Join(parts[1..], sep)
  }

  /** Joining lines none of which is empty gives the empty text only for no lines. */
  lemma {:induction false} JoinEmptyIffNoParts(parts: seq<string>, sep: string)
    requires forall i | 0 <= i < |parts| :: parts[i] != ""
    ensures Join(parts, sep) == "" <==> parts == []
  {
    if |parts| > 0 {
      assert |Join(parts, sep)| >= |parts[0]| by {
        if |parts| > 1 {
          assert Join(parts, sep) == parts[0] + sep + Join(parts[1..], sep);
        }
      }
    }
  }

  /** `s.split(sep)` for a one-character separator: the pieces between the separators. */
  function Split(s: string, sep: char): (r: seq<string>)
    ensures |r| >= 1
    decreases |s|
  {
    if s == [] then [""]
    else
      var rest := Split(s[1..], sep);
      if s[0] == sep then [""] + rest
      else [[s[0]] + rest[0]] + rest[1..]
  }

  /** Splitting a piece free of the separator gives the piece back alone. */
  lemma {:induction false} SplitNoSeparator(s: string, sep: char)
    requires sep !in s
    ensures Split(s, sep) == [s]
    decreases |s|
  {
    if s != [] {
      SplitNoSeparator(s[1..], sep);
      assert [s[0]] + s[1..] == s;
    }
  }

  /** A separator-free piece followed by the separator splits off as the first piece. */
  lemma {:induction false} SplitAfterPiece(piece: string, sep: char, tail: string)
    requires sep !in piece
    ensures Split(piece + [sep] + tail, sep) == [piece] + Split(tail, sep)
    decreases |piece|
  {
    var s := piece + [sep] + tail;
    if piece == [] {
      assert s == [sep] + tail;
      assert s[1..] == tail;
    } else {
      assert s[1..] == piece[1..] + [sep] + tail;
      SplitAfterPiece(piece[1..], sep, tail);
      assert [piece[0]] + piece[1..] == piece;
    }
  }

  /** `sep.join` is undone by `split(sep)` when no part contains the separator. */
  lemma {:induction false} SplitJoin(parts: seq<string>, sep: char)
    requires parts != []
    requires forall i | 0 <= i < |parts| :: sep !in parts[i]
    ensures Split(Join(parts, [sep]), sep) == parts
    decreases |parts|
  {
    if |parts| == 1 {
      SplitNoSeparator(parts[0], sep);
    } else {
      SplitAfterPiece(parts[0], sep, Join(parts[1..], [sep]));
      SplitJoin(parts[1..], sep);
      assert [parts[0]] + parts[1..] == parts;
    }
  }
}

=== FILE: wrappers.dfy ===
/** The optional value used where Python returns `None` or where a prompt can hit end of input. */
module Wrappers {
  datatype Option<+T> = None | Some(value: T)
}
